=== FILE: README.md ===
# Web scrapers: reader client, command line and pagination loop

A Dafny model of the pure core of two small Python scrapers.

- **Reader client** (`simple/src/jina/client.py`, `models.py`). `read_url` puts `https://r.jina.ai/` in front of a target URL. It builds the query parameters (`format`, `browser`, then the caller's extra parameters on top) and makes one GET. It turns the outcome into a `ReadResult`. `search_and_read` does the same against `https://s.jina.ai/` with `q` and `top_k`. `read_bulk` calls `read_url` on each URL in turn.
- **Reader command line** (`simple/src/jina/cli.py`).
  - `_sanitize_filename` makes a file base name from a URL in four passes:
    1. delete every `https://`;
    2. delete every `.com`;
    3. collapse each run of characters outside `[a-zA-Z0-9]` to one `_`;
    4. strip `_` from both ends.
  - `read` names its `.json` and `.md` outputs after one base.
  - `read-bulk` reads the stripped, non-blank lines of a file as URLs and reports how many results came back with status 200 and how many did not.
- **Job-board scraper** (`complex/src/scrapper.py`).
  - `main` logs in only when no saved session exists.
  - It then loops over the listing. Each pass captures the URL, extracts a batch of posts and pushes the whole batch to a table, one row per post (`push_data_to_airtable`). It then clicks "next" and stops once the click leaves the URL unchanged. A `create` that raises, or a missing "next" control, ends the run with an exception instead.

Modules:

- `models.dfy` (`Models`): `ReadResult` with its defaults, optional values, and the loosely typed `Dict[str, Any]` values, narrowed to strings, integers and nested dictionaries.
- `client.dfy` (`Client`): the request each call sends and the mapping from the network outcome to a result. The network is a parameter: a function from the `Request` a call sends (URL, query parameters, headers) to a `Fetch`, which is a response (status and body), an `httpx.HTTPError`, or another exception. Every contract is stated in terms of what the network answers to the request the call builds, so the URL, the parameter keys and values, and the headers sent are part of what is modelled; the order of the parameters is not. The clock is a parameter of type `Instant`. How a call ends is a `Completion`: it returns, or an exception escapes. The retry decorator re-runs a call only when an `HTTPError` escapes. Every call here ensures `!Retries(c)`, so each call is a single attempt.
- `sanitize.dfy` (`Sanitize`): the four passes, each modelled as one left-to-right, non-overlapping scan, as `re.sub` and `str.strip` do it.
- `cli.dfy` (`Cli`): the output base name, Python's `str.splitlines` and `str.strip()`, with their exact boundary and white-space sets, the newline translation of reading a file as text, the URL list, and the tally.
- `scraper.dfy` (`Scraper`): the login decision and the pagination loop, over a site given as a sequence of pages. Each page is the URL before the click, the extracted batch, the URL after the click, and the fault, if any, that raises on it: the `create` of one of its rows, or a click on a "next" control the pagination query did not find. The run records a trace of events (log-in, capture, extract, push, click, and the failed step when one raises), the table of rows it created, and whether it ended with an exception.

Where the repository's own prose and its code disagree, the model follows the code:

- The docstring of `_sanitize_filename` (cli.py:27-28) gives `https___example_com_foo_bar_1.jsonl` for `https://example.com/foo?bar=1`. The code deletes the scheme and `.com` and appends no extension, which gives `example_foo_bar_1` (`Sanitize.SanitizeExample`).
- The decorator allows three attempts, but no `HTTPError` ever reaches it, so a call makes one attempt.
- An empty batch is still pushed: `push_data_to_airtable` runs on every pass and creates zero rows for an empty batch.
- The loop stops when the URL after the click equals the URL captured at the start of the same pass. It does not compare the URLs of two consecutive passes.

## Model

| member | source | states |
|---|---|---|
| Models.DefaultsOfReadResult | simple/src/jina/models.py:5-11 | `url`, `status` and `fetched_at` are required; a record built from them alone has no content, no error and an empty `meta` |
| Client.AuthHeaders | simple/src/jina/client.py:22-24 | the `Authorization` header is sent iff the API key is a non-empty string, and then it is `Bearer <key>`; it is the only header the client configures |
| Client.Excerpt | simple/src/jina/client.py:69 | `body[:500]` is a prefix of the body, at most 500 characters long, and it is either exactly 500 long or the whole body |
| Client.ReadParams | simple/src/jina/client.py:51-57 | `format` is present iff the format is non-empty; `browser` is present iff the argument or the environment default is non-empty, and the argument wins; extra parameters override every earlier key; no other keys appear |
| Client.SearchParams | simple/src/jina/client.py:102-104 | the keys are `q`, `top_k` and the extra keys; extra parameters override `q` and `top_k` |
| Client.Settle | simple/src/jina/client.py:59-77 | no `HTTPError` escapes; an exception escapes iff the GET raised something other than an `HTTPError`. On a response the status and `meta` are carried over; `content` is the body iff the status is 200; `error` is absent iff the status is 200, and is otherwise a prefix of the body of at most 500 characters. An `HTTPError` gives status 0, no content, empty `meta` and its message as the error |
| Client.ReadUrl | simple/src/jina/client.py:36-77 | a single attempt, whose outcome is the network's answer to the request `ReadRequest` builds (prefixed URL, parameters, authorization header); the result keeps the caller's unprefixed URL; on a response it carries the status, `content` is the body iff the status is 200, `error` is otherwise the first 500 characters of the body, and `meta` holds exactly `requested_url` (the prefixed URL) and `params`; an `HTTPError` gives status 0, no content, empty `meta` and the message as error |
| Client.SearchAndRead | simple/src/jina/client.py:88-125 | a single attempt, whose outcome is the network's answer to the request `SearchRequest` builds (bare endpoint, parameters, authorization header); both paths label the result with `SearchLabel`, `s.jina.ai?q=<query>`; on a response `content` is the body iff the status is 200, `error` is otherwise the first 500 characters of the body, and `meta` holds only `params` (`q`, `top_k` defaulting to 5, extras on top); an `HTTPError` gives status 0, no content, empty `meta` and the message as error |
| Client.ReadBulk | simple/src/jina/client.py:79-80 | one result per input URL, in input order, each equal to `read_url` with default arguments on that URL; the list is returned iff no call's request is answered by a non-`HTTPError` exception, and otherwise the first such exception escapes; nothing is retried |
| Sanitize.SanitizeFilename | simple/src/jina/cli.py:24-33 | the name holds only ASCII letters, digits and `_`, never starts or ends with `_` and never holds `__`; its letters and digits are exactly those left after the two deletions, in order |
| Sanitize.DeleteAllKeepsOtherChars | simple/src/jina/cli.py:30-31 | deleting a pattern removes only characters of that pattern: every other character survives, in order |
| Sanitize.DeleteAllSkipsUnmatched | simple/src/jina/cli.py:30-31 | a prefix in which no match starts is copied through unchanged, and the scan continues on the rest |
| Sanitize.DeleteAllOneMatch | simple/src/jina/cli.py:30-31 | the first occurrence is deleted wherever it sits (for example the `.com` of `www.example.com/x`), and the scan resumes right after it; repeated, this removes every occurrence the scan meets |
| Sanitize.DeleteAllIsOnePass | simple/src/jina/cli.py:31 | deletion is one pass: deleting `.com` from `..comcom` leaves `.com`, a match formed by the deletion |
| Sanitize.CollapseShape | simple/src/jina/cli.py:32 | after collapsing, only letters, digits and `_` remain, no two `_` are adjacent, and letters and digits are kept in order |
| Sanitize.CollapseAlnumPrefix | simple/src/jina/cli.py:32 | letters and digits pass through collapsing unchanged |
| Sanitize.CollapseRunPrefix | simple/src/jina/cli.py:32 | a maximal run of other characters, `_` included, becomes exactly one `_` |
| Sanitize.StripUnderscores | simple/src/jina/cli.py:33 | the result has no `_` at either end, and a string without one is left unchanged |
| Sanitize.StripUnderscoresKeepsMiddle | simple/src/jina/cli.py:33 | stripping keeps a contiguous middle part of the name and cuts off nothing but `_` on either side of it |
| Sanitize.StripShape | simple/src/jina/cli.py:33 | stripping `_` keeps a name to letters, digits and `_`, adds no `__`, and drops no letter or digit |
| Sanitize.SanitizeIdempotent | simple/src/jina/cli.py:30-33 | sanitising a sanitised name returns it unchanged |
| Sanitize.DeletedExample | simple/src/jina/cli.py:30-31 | the two deletions turn `https://example.com/foo?bar=1` into `example/foo?bar=1` |
| Sanitize.CollapseExample | simple/src/jina/cli.py:32 | collapsing `example/foo?bar=1` gives `example_foo_bar_1` |
| Sanitize.SanitizeExample | simple/src/jina/cli.py:27-33 | `https://example.com/foo?bar=1` sanitises to `example_foo_bar_1`, not to the docstring's `https___example_com_foo_bar_1` |
| Cli.OutputBase | simple/src/jina/cli.py:41 | the base is the stem of `out` when `out` is a non-empty string, otherwise the sanitised URL, which is then a safe name |
| Cli.ReadPathsShareBase | simple/src/jina/cli.py:41-43 | cutting the suffixes off both paths gives the same name |
| Cli.LineLength | simple/src/jina/cli.py:57 | the first line ends at the first line boundary, or at the end of the text |
| Cli.SplitLines | simple/src/jina/cli.py:57 | no line holds a line boundary, and only empty text has no lines |
| Cli.SplitTranslated | simple/src/jina/cli.py:57 | translating `\r\n` and a lone `\r` to `\n`, as reading the file as text does, does not change what `splitlines` returns |
| Cli.SplitJoinedLines | simple/src/jina/cli.py:57 | splitting text written as `\n`-terminated lines gives back exactly those lines, empty ones included |
| Cli.StripSpace | simple/src/jina/cli.py:57 | the result has no white space, in Python's `isspace` sense, at either end, and is no longer than the line |
| Cli.StripSpaceEmpties | simple/src/jina/cli.py:57 | stripping empties a line iff it is all white space, and leaves a line without white space at its ends unchanged |
| Cli.StripKeepsMiddle | simple/src/jina/cli.py:57 | stripping keeps a contiguous middle part and removes only white space at the end |
| Cli.ParseUrlList | simple/src/jina/cli.py:57 | every URL read is non-empty and has no white space at either end; which URLs they are, in which order, is stated by `ParseCleanUrlList`, `ParsePaddedUrlList` and `ParseUnterminatedUrlList` |
| Cli.ParseCleanUrlList | simple/src/jina/cli.py:57 | a file of clean URLs, one per line, is read back as exactly those URLs in file order |
| Cli.ParsePaddedUrlList | simple/src/jina/cli.py:57 | a file whose lines are URLs padded with white space is read back as the stripped URLs, in file order |
| Cli.SplitUnterminated | simple/src/jina/cli.py:57 | a last line with no line break after it is still returned by `splitlines`, after the lines before it |
| Cli.ParseUnterminatedUrlList | simple/src/jina/cli.py:57 | when the file's last line has no line break after it, its stripped URL still ends the list, after the stripped URLs of the lines before it |
| Cli.BlankLineIgnored | simple/src/jina/cli.py:57 | a blank line contributes nothing to the URL list |
| Cli.NonBlankStrippedAppend | simple/src/jina/cli.py:57 | the URL list of two runs of lines is the first run's URLs followed by the second's |
| Cli.CountOk | simple/src/jina/cli.py:60 | `ok` is at most the number of results; it equals it iff every status is 200, and is 0 iff none is |
| Cli.CountOkAppend | simple/src/jina/cli.py:60 | counting is additive over concatenated result lists |
| Cli.TallyOf | simple/src/jina/cli.py:60-61 | `ok` is the number of results with status 200 and `failed` is the number of those with any other status, counted independently; together they are the number of results |
| Cli.FailedCountsNonOk | simple/src/jina/cli.py:61 | `len(results) - ok` is exactly the number of results whose status is not 200 |
| Cli.CountsAgree | simple/src/jina/cli.py:60 | results that have status 200 exactly where the network answered 200 give the same count |
| Cli.ReadBulkReport | simple/src/jina/cli.py:56-61 | the report covers exactly the parsed URLs; it is produced iff no call raises a non-`HTTPError` exception; `ok` is the number of calls the network answered with status 200, and `failed` is the rest; when every call fails with an `HTTPError`, `ok` is 0 |
| Scraper.FirstEnd | complex/src/scrapper.py:93-101 | the loop's last page is the first on which a pass raises or the click leaves the URL unchanged: the loop ends there and on no earlier page |
| Scraper.FinalTrace | complex/src/scrapper.py:84-97 | the last pass is a full pass iff nothing on its page raises; a pass that raises is cut short, a proper prefix of the full pass followed by the failed step, a raising `create` or a click on a missing "next" control; the count is printed iff no `create` raised |
| Scraper.Created | complex/src/scrapper.py:32-33 | the rows a push creates are a prefix of its batch, shorter than the batch exactly when a `create` raises |
| Scraper.PushBatch | complex/src/scrapper.py:27-35 | one row is created per post, in batch order, after the existing rows, and the printed count is the batch length; when the `create` of row `i` raises, exactly the rows before `i` are created and no count is printed |
| Scraper.VisitPage | complex/src/scrapper.py:81-97 | one pass: it raises iff a `create` raises or there is no "next" control; its events are those of `FinalTrace` and it adds the rows of `Created` |
| Scraper.ScrapeAndSync | complex/src/scrapper.py:69-101 | the body runs at least once and stops on the first page where a pass raises or the click stalls; every earlier pass completed and changed the URL; the run raised iff its last pass did; the trace is the optional log-in, then capture, extract, push and click per completed pass, then the events of the last pass, as `FinalTrace` gives them; the table holds the rows of every completed batch in order, then those the last push created, as many as the batch sizes add up to |
| Scraper.LogInIffNoSession | complex/src/scrapper.py:70-72 | a run logs in iff no session was saved, and then first |
| Scraper.PassOrder | complex/src/scrapper.py:84-97 | within each pass the URL is captured first, then the batch is extracted and pushed in full, then "next" is clicked |
| Scraper.OnePushPerPass | complex/src/scrapper.py:88-93 | each pass pushes exactly once, even when its batch is empty |
| Scraper.RowsCountBatches | complex/src/scrapper.py:88-93 | the rows created over a run number the sum of the batch sizes |
| Scraper.StopDependsOnlyOnUrls | complex/src/scrapper.py:79-101 | two sites whose pages carry the same URLs, faults and batch sizes stop after the same number of passes, whatever the posts say |
| Scraper.NoIterationCap | complex/src/scrapper.py:79-101 | there is no cap on passes: for every `n`, some site, each page entered where the previous click landed and nothing raising, ends the loop on page `n` and on no earlier one |

## Left out

- HTTP itself is not modelled: connections, timeouts, redirects and the `httpx` client. Each call receives the network as a parameter: a function from the request the call builds to the outcome of its single GET.
- The tenacity backoff and its three-attempt limit are not modelled as a loop. The contracts show that the retry predicate never fires.
- `datetime.now(timezone.utc)` is not modelled: each result's timestamp is a parameter.
- Environment loading (`JINA_API_KEY`, `JINA_BROWSER`, `OUTPUT_DIR`) and the typer and rich wiring are left out. The key and browser default are an `Env` value.
- File reading and writing are left out (`_save_json`, `_save_md`, directory creation, `read_text`), and so is text decoding. The model starts from the file's text. The newline translation of `read_text` is modelled as `Cli.Translate`, and `Cli.SplitTranslated` shows it does not change the lines.
- Two crash paths are left out. `_save_jsonl` is not defined (cli.py:59, 68), so `read-bulk` and `search` raise a `NameError` after fetching. `read` passes `None` to `_save_md` when there is no content (cli.py:46).
- Cli.ReadBulkReport: steps over the `_save_jsonl` call at cli.py:59 and models the tally lines 60-61 compute. The printed ok/failed line itself is not modelled.
- The messages `read` and `search` print (cli.py:48-51, 69-72), including the excerpt `res.error[:200]`, are console output and are not modelled.
- Models.Fields: query parameters are a map, so their order is not modelled. Python's dict keeps insertion order (`format`, then `browser`, then new extra keys, an overriding key keeping its place), and `httpx` writes the query string and `meta["params"]` in that order; the model states which keys are sent and with which values, not in which order.
- Models.Value: the `Any` of `Dict[str, Any]` is narrowed to strings, integers and nested dictionaries. Floats, booleans, `None` and lists, which `extra_params` may also carry and `httpx` encodes, are not modelled, because no contract here depends on how a value is encoded.
- Cli.OutputBase: `Path(out).stem` is a function parameter; its behaviour is not modelled.
- The `search` command (cli.py:63-72) adds only output wiring around `search_and_read`, so it is not modelled.
- An `extra_params` of `None` is modelled as the empty map. `params.update` with an empty map changes nothing, so the two agree.
- The browser login sequence is not modelled: `login()`, the AgentQL queries, fixed waits and page-ready waits (scrapper.py:37-67, 81). A log-in is a single event in the trace.
- The Airtable API is not modelled. The table is a sequence of rows and `create` appends one.
- `complex/src/aql/job_posts.py` is a query string for an external extractor. It only shapes the `JobPost` record: eight fields, a contract type of Contract or Full time, and a location type of remote, on-site or hybrid. Whether the extractor may return missing fields is not modelled.
- The listing URL (`BASE_URL + "/en/jobs"`, with its double slash) and the navigation to it are not modelled. The site oracle starts on the listing page.
- Scraper.ScrapeAndSync: requires that the loop ends on some page, by a stall or an exception. Without one the source loops forever, because it has no iteration cap. Only the two exceptions of the loop's own steps are modelled, a raising `create` and a missing "next" control; an exception from the browser, the page-ready wait or the extractor is not.

=== FILE: cli.dfy ===
/** The pure parts of the reader's command line: the base name `read` gives
    its two output files, the way `read-bulk` turns a text file into a list of
    URLs (Python's `str.splitlines` and `str.strip`), and the ok/failed tally
    it reports. File contents arrive as text; reading and writing files is
    not modelled. */
module Cli {
  import opened Models
  import Client
  import Sanitize

  const JsonSuffix := ".json"
  const MarkdownSuffix := ".md"

  /** The two files `read` writes, both named after one base. */
  datatype OutputPaths = OutputPaths(base: string, json: string, markdown: string)

  /** The base name of `read`'s output: the stem of `out` when `out` is a
      non-empty string, otherwise the sanitised URL. `stem` stands for
      `Path(...).stem`, which is not modelled. */
  function OutputBase(url: string, out: Option<string>, stem: string -> string): (base: string)
    ensures Truthy(out) ==> base == stem(out.value)
    ensures !Truthy(out) ==> base == Sanitize.SanitizeFilename(url) && Sanitize.IsSafeName(base)
  {
    if Truthy(out) then stem(out.value) else Sanitize.SanitizeFilename(url)
  }

  /** `read`'s `.json` and `.md` paths, relative to the output directory. */
  function ReadOutputPaths(url: string, out: Option<string>, stem: string -> string): (p: OutputPaths)
    ensures p.base == OutputBase(url, out, stem)
    ensures |p.json| == |p.base| + |JsonSuffix| && |p.markdown| == |p.base| + |MarkdownSuffix|
    ensures p.json[..|p.base|] == p.base && p.json[|p.base|..] == JsonSuffix
    ensures p.markdown[..|p.base|] == p.base && p.markdown[|p.base|..] == MarkdownSuffix
  {
    var base := OutputBase(url, out, stem);
    OutputPaths(base, base + JsonSuffix, base + MarkdownSuffix)
  }

  /** Both paths of `read` share their base: cutting the suffixes off gives
      the same name. */
  lemma ReadPathsShareBase(url: string, out: Option<string>, stem: string -> string)
    ensures var p := ReadOutputPaths(url, out, stem);
            p.json[..|p.json| - |JsonSuffix|] == p.markdown[..|p.markdown| - |MarkdownSuffix|]
  {
    var p := ReadOutputPaths(url, out, stem);
    assert p.json[..|p.json| - |JsonSuffix|] == p.base;
    assert p.markdown[..|p.markdown| - |MarkdownSuffix|] == p.base;
  }

  // ---------------------------------------------------------------------
  // `str.splitlines`

  /** The line boundaries of `str.splitlines`. */
  predicate IsLineBreak(c: char) {
    c == '\n' || c == '\r' || c == '\U{B}' || c == '\U{C}'
    || c == '\U{1C}' || c == '\U{1D}' || c == '\U{1E}'
    || c == '\U{85}' || c == '\U{2028}' || c == '\U{2029}'
  }

  predicate NoLineBreak(s: string) {
    forall i :: 0 <= i < |s| ==> !IsLineBreak(s[i])
  }

  /** The length of the first line of `s`: the index of its first line break,
      or `|s|` when there is none. */
  function LineLength(s: string): (n: nat)
    ensures n <= |s|
    ensures NoLineBreak(s[..n])
    ensures n < |s| ==> IsLineBreak(s[n])
  {
    if s == [] || IsLineBreak(s[0]) then 0
    else
      var n := 1 + LineLength(s[1..]);
      assert s[..n] == [s[0]] + s[1..][..n - 1];
      n
  }

  /** The length of the boundary at the start of `s`: `\r\n` counts as one. */
  function BreakLength(s: string): (n: nat)
    requires s != [] && IsLineBreak(s[0])
    ensures 1 <= n <= |s|
  {
    if |s| >= 2 && s[0] == '\r' && s[1] == '\n' then 2 else 1
  }

  /** `str.splitlines()`: the lines of `s` without their boundaries; a final
      boundary does not open an empty last line. */
  function SplitLines(s: string): (lines: seq<string>)
    ensures forall i :: 0 <= i < |lines| ==> NoLineBreak(lines[i])
    ensures s == [] <==> lines == []
    decreases |s|
  {
    if s == [] then []
    else
      var n := LineLength(s);
      if n == |s| then [s]
      else [s[..n]] + SplitLines(s[n + BreakLength(s[n..])..])
  }

  /** Lines written out with a `\n` after each. */
  function JoinLines(lines: seq<string>): (s: string)
    ensures lines == [] <==> s == []
  {
    if lines == [] then [] else lines[0] + "\n" + JoinLines(lines[1..])
  }

  /** Splitting one line followed by a one-character boundary other than
      `\r` and more text yields that line first, then the lines of the rest. */
  lemma SplitLinesOfFirst(line: string, c: char, rest: string)
    requires NoLineBreak(line) && IsLineBreak(c) && c != '\r'
    ensures SplitLines(line + [c] + rest) == [line] + SplitLines(rest)
  {
    var s := line + [c] + rest;
    LineLengthOfLine(line, c, rest);
    assert s[|line|..][0] == c;
    assert s[|line| + 1..] == rest;
    assert s[..|line|] == line;
  }

  lemma {:induction false} LineLengthOfLine(line: string, c: char, rest: string)
    requires NoLineBreak(line) && IsLineBreak(c)
    ensures LineLength(line + [c] + rest) == |line|
    decreases |line|
  {
    var s := line + [c] + rest;
    if line != [] {
      assert s[1..] == line[1..] + [c] + rest;
      LineLengthOfLine(line[1..], c, rest);
    }
  }

  /** `splitlines` undoes writing lines one per `\n`-terminated row, for any
      lines without a boundary in them, empty lines included. */
  lemma {:induction false} SplitJoinedLines(lines: seq<string>)
    requires forall i :: 0 <= i < |lines| ==> NoLineBreak(lines[i])
    ensures SplitLines(JoinLines(lines)) == lines
    decreases |lines|
  {
    if lines != [] {
      SplitLinesOfFirst(lines[0], '\n', JoinLines(lines[1..]));
      SplitJoinedLines(lines[1..]);
      assert lines == [lines[0]] + lines[1..];
    }
  }

  /** Reading the file as text with universal newlines: `\r\n` and a lone
      `\r` each become `\n`; every other character is kept. */
  function Translate(s: string): (t: string)
    ensures |t| <= |s|
    decreases |s|
  {
    if s == [] then []
    else if s[0] == '\r' then "\n" + Translate(if |s| >= 2 && s[1] == '\n' then s[2..] else s[1..])
    else [s[0]] + Translate(s[1..])
  }

  /** Text without boundaries passes through the translation unchanged. */
  lemma {:induction false} TranslateSkipsLine(a: string, b: string)
    requires NoLineBreak(a)
    ensures Translate(a + b) == a + Translate(b)
    decreases |a|
  {
    if a == [] {
      assert a + b == b;
    } else {
      var ab := a + b;
      assert ab[0] == a[0] && ab[1..] == a[1..] + b;
      assert !IsLineBreak(a[0]);
      TranslateSkipsLine(a[1..], b);
      assert a == [a[0]] + a[1..];
    }
  }

  /** A boundary, `\r\n` included, translates to one boundary character
      that is not `\r`. */
  lemma TranslateBreak(s: string)
    requires s != [] && IsLineBreak(s[0])
    ensures var t := Translate(s);
            t != [] && IsLineBreak(t[0]) && t[0] != '\r' && t[1..] == Translate(s[BreakLength(s)..])
  {
  }

  /** The newline translation `read_text` applies changes nothing that
      `splitlines` returns: both turn `\r\n` and `\r` into one boundary. */
  lemma {:induction false} SplitTranslated(s: string)
    ensures SplitLines(Translate(s)) == SplitLines(s)
    decreases |s|
  {
    if s != [] {
      var n := LineLength(s);
      if n < |s| {
        var k := n + BreakLength(s[n..]);
        SplitFirstLine(s, n, k);
        assert s == s[..n] + s[n..] && s[n..][BreakLength(s[n..])..] == s[k..];
        TranslatedFirstLine(s[..n], s[n..]);
        SplitTranslated(s[k..]);
      } else {
        TranslateSkipsLine(s, []);
        assert s + [] == s;
      }
    }
  }

  lemma SplitFirstLine(s: string, n: nat, k: nat)
    requires s != [] && n == LineLength(s) && n < |s| && k == n + BreakLength(s[n..])
    ensures SplitLines(s) == [s[..n]] + SplitLines(s[k..])
  {
  }

  /** The first line and its boundary after the translation. */
  lemma TranslatedFirstLine(line: string, rest: string)
    requires NoLineBreak(line) && rest != [] && IsLineBreak(rest[0])
    ensures SplitLines(Translate(line + rest)) == [line] + SplitLines(Translate(rest[BreakLength(rest)..]))
  {
    var t := Translate(rest);
    TranslateSkipsLine(line, rest);
    TranslateBreak(rest);
    assert line + t == line + [t[0]] + t[1..];
    SplitLinesOfFirst(line, t[0], t[1..]);
  }

  // ---------------------------------------------------------------------
  // `str.strip`

  /** The characters `str.isspace` accepts. */
  predicate IsSpace(c: char) {
    ('\U{9}' <= c <= '\U{D}') || ('\U{1C}' <= c <= ' ')
    || c == '\U{85}' || c == '\U{A0}' || c == '\U{1680}'
    || ('\U{2000}' <= c <= '\U{200A}') || c == '\U{2028}' || c == '\U{2029}'
    || c == '\U{202F}' || c == '\U{205F}' || c == '\U{3000}'
  }

  predicate IsBlank(s: string) {
    forall i :: 0 <= i < |s| ==> IsSpace(s[i])
  }

  predicate NoEdgeSpace(s: string) {
    s != [] ==> !IsSpace(s[0]) && !IsSpace(s[|s| - 1])
  }

  /** How many white-space characters `s` starts with. */
  function LeadingSpaces(s: string): (n: nat)
    ensures n <= |s|
    ensures IsBlank(s[..n])
    ensures n < |s| ==> !IsSpace(s[n])
  {
    if s == [] || !IsSpace(s[0]) then 0
    else
      var n := 1 + LeadingSpaces(s[1..]);
      assert s[..n] == [s[0]] + s[1..][..n - 1];
      n
  }

  /** How many white-space characters `s` ends with. */
  function TrailingSpaces(s: string): (n: nat)
    ensures n <= |s|
    ensures IsBlank(s[|s| - n..])
    ensures n < |s| ==> !IsSpace(s[|s| - n - 1])
  {
    if s == [] || !IsSpace(s[|s| - 1]) then 0
    else
      var init := s[..|s| - 1];
      var n := 1 + TrailingSpaces(init);
      assert s[|s| - n..] == init[|init| - (n - 1)..] + [s[|s| - 1]];
      n
  }

  /** `str.strip()`: `s` without white space at either end. */
  function StripSpace(s: string): (r: string)
    ensures |r| <= |s|
    ensures NoEdgeSpace(r)
  {
    var t := s[LeadingSpaces(s)..];
    t[..|t| - TrailingSpaces(t)]
  }

  /** Stripping empties exactly the blank lines, and leaves a line without
      white space at its ends as it is. */
  lemma StripSpaceEmpties(s: string)
    ensures StripSpace(s) == [] <==> IsBlank(s)
    ensures NoEdgeSpace(s) ==> StripSpace(s) == s
  {
    var lo := LeadingSpaces(s);
    var t := s[lo..];
    if IsBlank(s) {
      assert lo == |s|;
    } else {
      assert lo < |s| && !IsSpace(t[0]);
      assert TrailingSpaces(t) < |t|;
    }
  }

  /** Stripping keeps the middle of the text: it cuts off the leading white
      space and then only white space at the end. */
  lemma StripKeepsMiddle(s: string)
    ensures var lo, r := LeadingSpaces(s), StripSpace(s);
            lo + |r| <= |s| && r == s[lo..lo + |r|] && IsBlank(s[lo + |r|..])
  {
    var lo := LeadingSpaces(s);
    var t := s[lo..];
    var m := |t| - TrailingSpaces(t);
    MiddleOfSuffix(s, lo, t, m);
  }

  lemma MiddleOfSuffix(s: string, lo: nat, t: string, m: nat)
    requires lo <= |s| && t == s[lo..] && m <= |t| && IsBlank(t[m..])
    ensures lo + m <= |s| && t[..m] == s[lo..lo + m] && IsBlank(s[lo + m..])
  {
    assert t[m..] == s[lo + m..];
  }

  // ---------------------------------------------------------------------
  // `read-bulk`

  /** The stripped lines that are not blank, in their original order. */
  function NonBlankStripped(lines: seq<string>): (urls: seq<string>)
    ensures |urls| <= |lines|
    ensures forall i :: 0 <= i < |urls| ==> urls[i] != [] && NoEdgeSpace(urls[i])
  {
    if lines == [] then []
    else
      var u := StripSpace(lines[0]);
      (if u != [] then [u] else []) + NonBlankStripped(lines[1..])
  }

  /** `read-bulk`'s URL list: the stripped, non-blank lines of the file. */
  function ParseUrlList(text: string): (urls: seq<string>)
    ensures forall i :: 0 <= i < |urls| ==> urls[i] != [] && NoEdgeSpace(urls[i])
  {
    NonBlankStripped(SplitLines(text))
  }

  /** Filtering lines distributes over splitting the list of lines. */
  lemma {:induction false} NonBlankStrippedAppend(a: seq<string>, b: seq<string>)
    ensures NonBlankStripped(a + b) == NonBlankStripped(a) + NonBlankStripped(b)
    decreases |a|
  {
    if a == [] {
      assert a + b == b;
    } else {
      assert (a + b)[1..] == a[1..] + b;
      NonBlankStrippedAppend(a[1..], b);
    }
  }

  /** A file holding one clean URL per line is read back as exactly those
      URLs, and blank lines between them are skipped. */
  lemma {:induction false} ParseCleanUrlList(urls: seq<string>)
    requires forall i :: 0 <= i < |urls| ==>
               urls[i] != [] && NoEdgeSpace(urls[i]) && NoLineBreak(urls[i])
    ensures ParseUrlList(JoinLines(urls)) == urls
    decreases |urls|
  {
    SplitJoinedLines(urls);
    NonBlankOfClean(urls);
  }

  /** A file whose lines are URLs padded with white space is read back as
      the stripped URLs, in file order. */
  lemma ParsePaddedUrlList(lines: seq<string>, urls: seq<string>)
    requires |lines| == |urls|
    requires forall i :: 0 <= i < |lines| ==>
               NoLineBreak(lines[i]) && urls[i] != [] && StripSpace(lines[i]) == urls[i]
    ensures ParseUrlList(JoinLines(lines)) == urls
  {
    SplitJoinedLines(lines);
    NonBlankOfPadded(lines, urls);
  }

  lemma {:induction false} NonBlankOfPadded(lines: seq<string>, urls: seq<string>)
    requires |lines| == |urls|
    requires forall i :: 0 <= i < |lines| ==> urls[i] != [] && StripSpace(lines[i]) == urls[i]
    ensures NonBlankStripped(lines) == urls
    decreases |lines|
  {
    if lines != [] {
      NonBlankOfPadded(lines[1..], urls[1..]);
      assert urls == [urls[0]] + urls[1..];
    }
  }

  /** A last line without a `\n` after it is still a line of its own. */
  lemma {:induction false} SplitUnterminated(lines: seq<string>, last: string)
    requires forall i :: 0 <= i < |lines| ==> NoLineBreak(lines[i])
    requires last != [] && NoLineBreak(last)
    ensures SplitLines(JoinLines(lines) + last) == lines + [last]
    decreases |lines|
  {
    if lines == [] {
      assert JoinLines(lines) + last == last;
      SplitUnbroken(last);
    } else {
      var rest := JoinLines(lines[1..]);
      JoinedThenLast(lines[0], rest, last);
      SplitLinesOfFirst(lines[0], '\n', rest + last);
      SplitUnterminated(lines[1..], last);
      ConsThenLast(lines, last);
    }
  }

  lemma JoinedThenLast(line: string, rest: string, last: string)
    ensures line + "\n" + rest + last == line + ['\n'] + (rest + last)
  {
  }

  lemma ConsThenLast<T>(xs: seq<T>, x: T)
    requires xs != []
    ensures xs + [x] == [xs[0]] + (xs[1..] + [x])
  {
  }

  lemma SplitUnbroken(s: string)
    requires s != [] && NoLineBreak(s)
    ensures SplitLines(s) == [s]
  {
  }

  /** A file whose last URL has no `\n` after it loses nothing: that line is
      read, stripped, like every other. */
  lemma ParseUnterminatedUrlList(lines: seq<string>, urls: seq<string>, last: string)
    requires |lines| == |urls|
    requires forall i :: 0 <= i < |lines| ==>
               NoLineBreak(lines[i]) && urls[i] != [] && StripSpace(lines[i]) == urls[i]
    requires NoLineBreak(last) && StripSpace(last) != []
    ensures ParseUrlList(JoinLines(lines) + last) == urls + [StripSpace(last)]
  {
    assert last != [];
    SplitUnterminated(lines, last);
    NonBlankOfPadded(lines, urls);
    NonBlankThenLast(lines, urls, last);
  }

  lemma NonBlankThenLast(lines: seq<string>, urls: seq<string>, last: string)
    requires NonBlankStripped(lines) == urls && StripSpace(last) != []
    ensures NonBlankStripped(lines + [last]) == urls + [StripSpace(last)]
  {
    NonBlankStrippedAppend(lines, [last]);
    assert NonBlankStripped([last]) == [StripSpace(last)] + NonBlankStripped([last][1..]);
  }

  lemma {:induction false} NonBlankOfClean(urls: seq<string>)
    requires forall i :: 0 <= i < |urls| ==> urls[i] != [] && NoEdgeSpace(urls[i])
    ensures NonBlankStripped(urls) == urls
    decreases |urls|
  {
    if urls != [] {
      StripSpaceEmpties(urls[0]);
      NonBlankOfClean(urls[1..]);
      assert urls == [urls[0]] + urls[1..];
    }
  }

  /** Blank lines contribute nothing to the URL list. */
  lemma BlankLineIgnored(before: seq<string>, blank: string, after: seq<string>)
    requires IsBlank(blank)
    ensures NonBlankStripped(before + [blank] + after) == NonBlankStripped(before + after)
  {
    var rest := [blank] + after;
    assert before + [blank] + after == before + rest;
    calc {
      NonBlankStripped(before + rest);
      { NonBlankStrippedAppend(before, rest); }
      NonBlankStripped(before) + NonBlankStripped(rest);
      { BlankLineDropped(blank, after); }
      NonBlankStripped(before) + NonBlankStripped(after);
      { NonBlankStrippedAppend(before, after); }
      NonBlankStripped(before + after);
    }
  }

  lemma BlankLineDropped(blank: string, rest: seq<string>)
    requires IsBlank(blank)
    ensures NonBlankStripped([blank] + rest) == NonBlankStripped(rest)
  {
    StripSpaceEmpties(blank);
    assert ([blank] + rest)[1..] == rest;
  }

  predicate IsOk(r: ReadResult) {
    r.status == Client.OkStatus
  }

  /** `sum(1 for r in results if r.status == 200)`. */
  function CountOk(rs: seq<ReadResult>): (ok: nat)
    ensures ok <= |rs|
    ensures ok == |rs| <==> forall i :: 0 <= i < |rs| ==> IsOk(rs[i])
    ensures ok == 0 <==> forall i :: 0 <= i < |rs| ==> !IsOk(rs[i])
  {
    if rs == [] then 0
    else (if IsOk(rs[0]) then 1 else 0) + CountOk(rs[1..])
  }

  /** The results whose status is anything but 200: an independent count of
      the failures. */
  function CountFailed(rs: seq<ReadResult>): (failed: nat)
    ensures failed <= |rs|
  {
    if rs == [] then 0
    else (if IsOk(rs[0]) then 0 else 1) + CountFailed(rs[1..])
  }

  lemma {:induction false} CountOkAppend(a: seq<ReadResult>, b: seq<ReadResult>)
    ensures CountOk(a + b) == CountOk(a) + CountOk(b)
    decreases |a|
  {
    if a == [] {
      assert a + b == b;
    } else {
      assert (a + b)[1..] == a[1..] + b;
      CountOkAppend(a[1..], b);
    }
  }

  datatype Tally = Tally(ok: nat, failed: nat)

  /** The numbers `read-bulk` reports: `ok`, and `len(results) - ok` failed,
      which is exactly the number of results whose status is not 200. */
  function TallyOf(rs: seq<ReadResult>): (t: Tally)
    ensures t.ok + t.failed == |rs|
    ensures t.ok == CountOk(rs)
    ensures t.failed == CountFailed(rs)
  {
    FailedCountsNonOk(rs);
    Tally(CountOk(rs), |rs| - CountOk(rs))
  }

  /** Subtracting the 200s from the length counts the non-200 results. */
  lemma {:induction false} FailedCountsNonOk(rs: seq<ReadResult>)
    ensures |rs| - CountOk(rs) == CountFailed(rs)
    decreases |rs|
  {
    if rs != [] {
      FailedCountsNonOk(rs[1..]);
    }
  }

  /** The network answered the call with status 200. */
  predicate AnsweredOk(f: Client.Fetch) {
    f.Response? && f.status == Client.OkStatus
  }

  /** How many of `fs` are answers with status 200, counted on the network's
      side, independently of the results the client builds from them. */
  function CountAnsweredOk(fs: seq<Client.Fetch>): (n: nat)
    ensures n <= |fs|
  {
    if fs == [] then 0
    else (if AnsweredOk(fs[0]) then 1 else 0) + CountAnsweredOk(fs[1..])
  }

  /** What the network answers to each call of `read-bulk`, in order. */
  function BulkOutcomes(env: Client.Env, nets: nat -> Client.Request -> Client.Fetch, urls: seq<string>)
    : (fs: seq<Client.Fetch>)
    ensures |fs| == |urls|
    ensures forall i :: 0 <= i < |urls| ==> fs[i] == Client.BulkOutcome(env, nets, urls, i)
  {
    seq(|urls|, i requires 0 <= i < |urls| => Client.BulkOutcome(env, nets, urls, i))
  }

  /** Results that are 200 exactly where the answers are 200 have the same count. */
  lemma {:induction false} CountsAgree(rs: seq<ReadResult>, fs: seq<Client.Fetch>)
    requires |rs| == |fs|
    requires forall i :: 0 <= i < |rs| ==> (IsOk(rs[i]) <==> AnsweredOk(fs[i]))
    ensures CountOk(rs) == CountAnsweredOk(fs)
    decreases |rs|
  {
    if rs != [] {
      CountsAgree(rs[1..], fs[1..]);
    }
  }

  /** `read-bulk` up to its report: parse the file, read every URL, count.
      The i-th URL sees the i-th state of the network and of the clock. */
  method ReadBulkReport(env: Client.Env, nets: nat -> Client.Request -> Client.Fetch,
                        clock: nat -> Instant, text: string)
    returns (c: Client.Completion<Tally>)
    ensures c.Raised? ==> c.exception.OtherException?
    ensures var urls := ParseUrlList(text);
            c.Normal? <==> forall i :: 0 <= i < |urls| ==> !Client.BulkOutcome(env, nets, urls, i).OtherError?
    ensures c.Normal? ==> c.value.ok == CountAnsweredOk(BulkOutcomes(env, nets, ParseUrlList(text)))
    ensures c.Normal? ==> c.value.ok + c.value.failed == |ParseUrlList(text)|
    ensures var urls := ParseUrlList(text);
            c.Normal? && (forall i :: 0 <= i < |urls| ==> Client.BulkOutcome(env, nets, urls, i).HttpError?) ==>
              c.value.ok == 0
  {
    var urls := ParseUrlList(text);
    var results := Client.ReadBulk(env, nets, clock, urls);
    if results.Raised? {
      return Client.Raised(results.exception);
    }
    var fs := BulkOutcomes(env, nets, urls);
    forall i | 0 <= i < |urls|
      ensures IsOk(results.value[i]) <==> AnsweredOk(fs[i])
    {
      assert Client.ReadUrl(env, nets(i), clock(i), urls[i]) == Client.Normal(results.value[i]);
    }
    CountsAgree(results.value, fs);
    c := Client.Normal(TallyOf(results.value));
  }
}

=== FILE: client.dfy ===
/** The reader client: how `read_url` and `search_and_read` build their
    requests, and how the one outcome of the HTTP call becomes a `ReadResult`.

    The network is an oracle: a function from the request a call sends to
    the `Fetch` its single GET produces, so what the calls send is part of
    what they compute. The retry decorator re-invokes a call only when an `HTTPError`
    escapes it; both bodies catch every `HTTPError`, so the contracts below
    show that nothing the decorator would retry ever escapes, which makes
    every call a single attempt. */
module Client {
  import opened Models

  const ReaderPrefix := "https://r.jina.ai/"
  const SearchEndpoint := "https://s.jina.ai/"
  const SearchLabelPrefix := "s.jina.ai?q="
  const DefaultFormat := "markdown"
  const DefaultTopK := 5
  /** Non-200 bodies are kept as an error excerpt of at most this many characters. */
  const ErrorExcerptLength := 500
  const OkStatus := 200

  /** Process-wide configuration read from the environment at import time. */
  datatype Env = Env(apiKey: Option<string>, browser: Option<string>)

  datatype Request = Request(url: string, params: Fields, headers: map<string, string>)

  /** What the single GET did: answered with a status and a body, raised an
      `httpx.HTTPError` (timeouts, connection failures, too many redirects, ...),
      or raised some other exception (for instance `httpx.InvalidURL`, which
      is not an `HTTPError`). */
  datatype Fetch =
    | Response(status: int, body: string)
    | HttpError(message: string)
    | OtherError(message: string)

  datatype Exception = HttpException(message: string) | OtherException(message: string)

  /** How a call to a decorated method ends: it returns, or an exception escapes. */
  datatype Completion<+T> = Normal(value: T) | Raised(exception: Exception)

  /** The decorator's retry predicate, `retry_if_exception_type(httpx.HTTPError)`:
      only an escaping `HTTPError` starts another attempt. */
  predicate Retries<T>(c: Completion<T>) {
    c.Raised? && c.exception.HttpException?
  }

  /** The `Authorization` header, sent only when an API key is configured. */
  function AuthHeaders(apiKey: Option<string>): (h: map<string, string>)
    ensures h.Keys <= {"Authorization"}
    ensures "Authorization" in h <==> Truthy(apiKey)
    ensures "Authorization" in h ==> h["Authorization"] == "Bearer " + apiKey.value
  {
    if Truthy(apiKey) then map["Authorization" := "Bearer " + apiKey.value] else map[]
  }

  /** The first `limit` characters of `body` (Python's `body[:limit]`). */
  function Excerpt(body: string, limit: nat): (e: string)
    ensures e <= body
    ensures |e| <= limit
    ensures |e| == limit || e == body
  {
    if |body| <= limit then body else body[..limit]
  }

  /** The query parameters of `read_url`: `format` when one is given, `browser`
      from the argument or else the environment, then `extra` on top. */
  function ReadParams(format: string, browser: Option<string>, envBrowser: Option<string>, extra: Fields): (p: Fields)
    ensures p.Keys == extra.Keys
                      + (if format != "" then {"format"} else {})
                      + (if Truthy(browser) || Truthy(envBrowser) then {"browser"} else {})
    ensures forall k :: k in extra ==> p[k] == extra[k]
    ensures "format" !in extra && format != "" ==> p["format"] == Str(format)
    ensures "browser" !in extra && Truthy(browser) ==> p["browser"] == Str(browser.value)
    ensures "browser" !in extra && !Truthy(browser) && Truthy(envBrowser) ==> p["browser"] == Str(envBrowser.value)
  {
    var withFormat: Fields := if format != "" then map["format" := Str(format)] else map[];
    var withBrowser :=
      if Truthy(browser) then withFormat["browser" := Str(browser.value)]
      else if Truthy(envBrowser) then withFormat["browser" := Str(envBrowser.value)]
      else withFormat;
    withBrowser + extra
  }

  /** The GET `read_url` sends: the target URL behind the reader's prefix. */
  function ReadRequest(env: Env, url: string, format: string, browser: Option<string>, extra: Fields): Request {
    Request(ReaderPrefix + url, ReadParams(format, browser, env.browser, extra), AuthHeaders(env.apiKey))
  }

  /** The query parameters of `search_and_read`: `q` and `top_k`, then `extra` on top. */
  function SearchParams(query: string, topK: int, extra: Fields): (p: Fields)
    ensures p.Keys == {"q", "top_k"} + extra.Keys
    ensures forall k :: k in extra ==> p[k] == extra[k]
    ensures "q" !in extra ==> p["q"] == Str(query)
    ensures "top_k" !in extra ==> p["top_k"] == Int(topK)
  {
    map["q" := Str(query), "top_k" := Int(topK)] + extra
  }

  /** The GET `search_and_read` sends: always the bare search endpoint. */
  function SearchRequest(env: Env, query: string, topK: int, extra: Fields): Request {
    Request(SearchEndpoint, SearchParams(query, topK, extra), AuthHeaders(env.apiKey))
  }

  /** The label both paths of `search_and_read` put in the result's `url`. */
  function SearchLabel(query: string): string {
    SearchLabelPrefix + query
  }

  /** The `try`/`except httpx.HTTPError` shared by both calls: a response becomes
      a result carrying `meta`; an `HTTPError` becomes a status-0 result with the
      exception's message; any other exception escapes. */
  function Settle(tag: string, meta: Fields, fetch: Fetch, now: Instant): (c: Completion<ReadResult>)
    ensures !Retries(c)
    ensures c.Raised? <==> fetch.OtherError?
    ensures fetch.OtherError? ==> c.exception.message == fetch.message
    ensures c.Normal? ==> c.value.url == tag && c.value.fetchedAt == now
    ensures fetch.Response? ==> c.value.status == fetch.status && c.value.meta == meta
    ensures fetch.Response? ==> (c.value.content.Some? <==> fetch.status == OkStatus)
    ensures fetch.Response? && c.value.content.Some? ==> c.value.content.value == fetch.body
    ensures fetch.Response? ==> (c.value.error.None? <==> fetch.status == OkStatus)
    ensures fetch.Response? && c.value.error.Some? ==>
              c.value.error.value <= fetch.body
              && |c.value.error.value| <= ErrorExcerptLength
              && (|c.value.error.value| == ErrorExcerptLength || c.value.error.value == fetch.body)
    ensures fetch.HttpError? ==>
              c.value.status == 0 && c.value.content == None && c.value.meta == map[]
              && c.value.error == Some(fetch.message)
  {
    match fetch
    case Response(status, body) =>
      Normal(ReadResult(
        url := tag,
        status := status,
        fetchedAt := now,
        content := if status == OkStatus then Some(body) else None,
        meta := meta,
        error := if status == OkStatus then None else Some(Excerpt(body, ErrorExcerptLength))))
    case HttpError(message) =>
      Normal(ReadResult(url := tag, status := 0, fetchedAt := now, error := Some(message)))
    case OtherError(message) =>
      Raised(OtherException(message))
  }

  /** `read_url`: one GET of `ReadRequest(...)` on the network `net`. The
      result keeps the caller's URL, not the prefixed one, and on a response
      records the prefixed URL and the parameters in its metadata. */
  function ReadUrl(env: Env, net: Request -> Fetch, now: Instant, url: string,
                   format: string := DefaultFormat, browser: Option<string> := None,
                   extra: Fields := map[]): (c: Completion<ReadResult>)
    ensures !Retries(c)
    ensures var fetch := net(ReadRequest(env, url, format, browser, extra));
            (c.Raised? <==> fetch.OtherError?)
            && (fetch.OtherError? ==> c.exception.message == fetch.message)
    ensures c.Normal? ==> c.value.url == url && c.value.fetchedAt == now
    ensures var fetch := net(ReadRequest(env, url, format, browser, extra));
            fetch.Response? ==>
              c.value.status == fetch.status
              && c.value.meta.Keys == {"requested_url", "params"}
              && c.value.meta["requested_url"] == Str(ReaderPrefix + url)
              && c.value.meta["params"] == Dict(ReadParams(format, browser, env.browser, extra))
    ensures var fetch := net(ReadRequest(env, url, format, browser, extra));
            fetch.Response? ==>
              c.value.content == (if fetch.status == OkStatus then Some(fetch.body) else None)
              && c.value.error == (if fetch.status == OkStatus then None
                                   else Some(Excerpt(fetch.body, ErrorExcerptLength)))
    ensures var fetch := net(ReadRequest(env, url, format, browser, extra));
            fetch.HttpError? ==>
              c.value.status == 0 && c.value.content == None && c.value.meta == map[]
              && c.value.error == Some(fetch.message)
  {
    var request := ReadRequest(env, url, format, browser, extra);
    Settle(url, map["requested_url" := Str(request.url), "params" := Dict(request.params)], net(request), now)
  }

  /** `search_and_read`: one GET of `SearchRequest(...)` on the network `net`.
      Both paths label the result with the query; only the parameters go to
      the metadata. */
  function SearchAndRead(env: Env, net: Request -> Fetch, now: Instant, query: string,
                         topK: int := DefaultTopK, extra: Fields := map[]): (c: Completion<ReadResult>)
    ensures !Retries(c)
    ensures var fetch := net(SearchRequest(env, query, topK, extra));
            (c.Raised? <==> fetch.OtherError?)
            && (fetch.OtherError? ==> c.exception.message == fetch.message)
    ensures c.Normal? ==> c.value.url == SearchLabelPrefix + query && c.value.fetchedAt == now
    ensures var fetch := net(SearchRequest(env, query, topK, extra));
            fetch.Response? ==>
              c.value.status == fetch.status
              && c.value.meta.Keys == {"params"}
              && c.value.meta["params"] == Dict(SearchParams(query, topK, extra))
    ensures var fetch := net(SearchRequest(env, query, topK, extra));
            fetch.Response? ==>
              c.value.content == (if fetch.status == OkStatus then Some(fetch.body) else None)
              && c.value.error == (if fetch.status == OkStatus then None
                                   else Some(Excerpt(fetch.body, ErrorExcerptLength)))
    ensures var fetch := net(SearchRequest(env, query, topK, extra));
            fetch.HttpError? ==>
              c.value.status == 0 && c.value.content == None && c.value.meta == map[]
              && c.value.error == Some(fetch.message)
  {
    var request := SearchRequest(env, query, topK, extra);
    Settle(SearchLabel(query), map["params" := Dict(request.params)], net(request), now)
  }

  /** What the network answers to the i-th call of `read_bulk`, which is
      `read_url` with its default arguments on the i-th URL. */
  function BulkOutcome(env: Env, nets: nat -> Request -> Fetch, urls: seq<string>, i: nat): Fetch
    requires i < |urls|
  {
    nets(i)(ReadRequest(env, urls[i], DefaultFormat, None, map[]))
  }

  /** `read_bulk`: `read_url` with its default arguments on each URL in turn;
      the i-th call sees the i-th state of the network and of the clock. The
      first exception that escapes a call ends the whole list. */
  method ReadBulk(env: Env, nets: nat -> Request -> Fetch, clock: nat -> Instant, urls: seq<string>)
    returns (c: Completion<seq<ReadResult>>)
    ensures !Retries(c)
    ensures c.Normal? <==> forall i :: 0 <= i < |urls| ==> !BulkOutcome(env, nets, urls, i).OtherError?
    ensures c.Normal? ==> |c.value| == |urls|
    ensures c.Normal? ==> forall i :: 0 <= i < |urls| ==> c.value[i].url == urls[i]
    ensures c.Normal? ==> forall i :: 0 <= i < |urls| ==>
              ReadUrl(env, nets(i), clock(i), urls[i]) == Normal(c.value[i])
    ensures c.Raised? ==>
              (exists i :: 0 <= i < |urls| && BulkOutcome(env, nets, urls, i).OtherError?
                 && c.exception == OtherException(BulkOutcome(env, nets, urls, i).message)
                 && (forall j :: 0 <= j < i ==> !BulkOutcome(env, nets, urls, j).OtherError?))
  {
    var results: seq<ReadResult> := [];
    var i := 0;
    while i < |urls|
      invariant 0 <= i <= |urls|
      invariant |results| == i
      invariant forall j :: 0 <= j < i ==> !BulkOutcome(env, nets, urls, j).OtherError?
      invariant forall j :: 0 <= j < i ==> ReadUrl(env, nets(j), clock(j), urls[j]) == Normal(results[j])
    {
      var r := ReadUrl(env, nets(i), clock(i), urls[i]);
      if r.Raised? {
        assert BulkOutcome(env, nets, urls, i).OtherError?;
        return Raised(r.exception);
      }
      results := results + [r.value];
      i := i + 1;
    }
    return Normal(results);
  }
}

=== FILE: models.dfy ===
/** The reader client's record type (`ReadResult`) and the loosely typed
    values it carries in its metadata and request parameters. */
module Models {

  /** Python's `Optional[...]`: `None` or a present value. */
  datatype Option<+T> = None | Some(value: T)

  /** Python truthiness of an optional string: both `None` and `""` are false. */
  predicate Truthy(s: Option<string>) {
    s.Some? && s.value != ""
  }

  /** The `Any` of a `Dict[str, Any]`: a string, an integer or a nested dictionary. */
  datatype Value = Str(s: string) | Int(i: int) | Dict(entries: map<string, Value>)

  /** A `Dict[str, Any]`. Python's `dict.update` is the right-biased union `+`. */
  type Fields = map<string, Value>

  /** An opaque point in time; the client stamps each result with the UTC clock. */
  datatype Instant = Instant(utcMicros: int)

  /** One reader invocation's outcome. `url`, `status` and `fetchedAt` are
      required; the other three fields default to "no content", a fresh empty
      map and "no error". Values are immutable, so every default-constructed
      record has its own empty `meta`. */
  datatype ReadResult = ReadResult(
    url: string,
    status: int,
    fetchedAt: Instant,
    content: Option<string> := None,
    meta: Fields := map[],
    error: Option<string> := None)

  /** Building a record from its three required fields alone leaves content
      and error absent and the metadata empty. */
  lemma DefaultsOfReadResult(url: string, status: int, fetchedAt: Instant)
    ensures ReadResult(url, status, fetchedAt).content == None
    ensures ReadResult(url, status, fetchedAt).meta == map[]
    ensures ReadResult(url, status, fetchedAt).error == None
    ensures ReadResult(url, status, fetchedAt).url == url
    ensures ReadResult(url, status, fetchedAt).status == status
  {
  }
}

=== FILE: sanitize.dfy ===
/** `_sanitize_filename` of the reader's command line: a URL becomes a file
    base name through four passes, each one left-to-right and non-overlapping
    like the `re.sub` or `str.strip` it stands for:
      1. delete every `https://`;
      2. delete every `.com`;
      3. replace each maximal run of characters outside `[a-zA-Z0-9]` by one `_`;
      4. strip `_` from both ends. */
module Sanitize {

  const SchemePattern := "https://"
  const DomainPattern := ".com"

  /** `[a-zA-Z0-9]`: the character class is ASCII-only. */
  predicate IsAsciiAlnum(c: char) {
    ('a' <= c <= 'z') || ('A' <= c <= 'Z') || ('0' <= c <= '9')
  }

  predicate IsNameChar(c: char) {
    IsAsciiAlnum(c) || c == '_'
  }

  predicate NameCharsOnly(s: string) {
    forall i :: 0 <= i < |s| ==> IsNameChar(s[i])
  }

  ghost predicate NoDoubleUnderscore(s: string) {
    forall i :: 0 <= i < |s| - 1 ==> !(s[i] == '_' && s[i + 1] == '_')
  }

  predicate NoEdgeUnderscore(s: string) {
    |s| > 0 ==> s[0] != '_' && s[|s| - 1] != '_'
  }

  /** What every sanitised name looks like. */
  ghost predicate IsSafeName(s: string) {
    NameCharsOnly(s) && NoDoubleUnderscore(s) && NoEdgeUnderscore(s)
  }

  /** `c` as a one-character string if it is a letter or digit, else nothing. */
  function AlnumPart(c: char): string {
    if IsAsciiAlnum(c) then [c] else []
  }

  /** The letters and digits of `s`, in order. */
  function AlnumOf(s: string): (r: string)
    ensures |r| <= |s|
    ensures forall i :: 0 <= i < |r| ==> IsAsciiAlnum(r[i])
  {
    if s == [] then [] else AlnumPart(s[0]) + AlnumOf(s[1..])
  }

  lemma {:induction false} AlnumOfAppend(a: string, b: string)
    ensures AlnumOf(a + b) == AlnumOf(a) + AlnumOf(b)
    decreases |a|
  {
    if a == [] {
      assert a + b == b;
    } else {
      var ab := a + b;
      assert ab[0] == a[0] && ab[1..] == a[1..] + b;
      AlnumOfAppend(a[1..], b);
      assert AlnumOf(ab) == AlnumPart(a[0]) + AlnumOf(a[1..] + b);
    }
  }

  /** `c` as a one-character string if it does not occur in `pat`, else nothing. */
  function OutsidePart(c: char, pat: string): string {
    if c in pat then [] else [c]
  }

  /** The characters of `s` that do not occur in `pat`, in order. */
  function Outside(s: string, pat: string): (r: string)
    ensures |r| <= |s|
    ensures forall i :: 0 <= i < |r| ==> r[i] !in pat
  {
    if s == [] then [] else OutsidePart(s[0], pat) + Outside(s[1..], pat)
  }

  lemma {:induction false} OutsideAppend(a: string, b: string, pat: string)
    ensures Outside(a + b, pat) == Outside(a, pat) + Outside(b, pat)
    decreases |a|
  {
    if a == [] {
      assert a + b == b;
    } else {
      var ab := a + b;
      assert ab[0] == a[0] && ab[1..] == a[1..] + b;
      OutsideAppend(a[1..], b, pat);
      assert Outside(ab, pat) == OutsidePart(a[0], pat) + Outside(a[1..] + b, pat);
    }
  }

  lemma {:induction false} OutsideOfPatternPart(s: string, pat: string)
    requires forall i :: 0 <= i < |s| ==> s[i] in pat
    ensures Outside(s, pat) == []
    decreases |s|
  {
    if s != [] {
      OutsideOfPatternPart(s[1..], pat);
    }
  }

  /** One `re.sub(pat, "", s)` for a literal, non-empty `pat`: scan from the
      left; at a match drop it and resume after it, otherwise keep one character. */
  function DeleteAll(s: string, pat: string): (r: string)
    requires pat != []
    ensures |r| <= |s|
    decreases |s|
  {
    if s == [] then []
    else if pat <= s then DeleteAll(s[|pat|..], pat)
    else [s[0]] + DeleteAll(s[1..], pat)
  }

  /** Deletion removes only pattern characters: every other character
      survives, in its original order. */
  lemma {:induction false} DeleteAllKeepsOtherChars(s: string, pat: string)
    requires pat != []
    ensures Outside(DeleteAll(s, pat), pat) == Outside(s, pat)
    decreases |s|
  {
    if s == [] {
    } else if pat <= s {
      DeleteAllKeepsOtherChars(s[|pat|..], pat);
      assert s == pat + s[|pat|..];
      OutsideAppend(pat, s[|pat|..], pat);
      OutsideOfPatternPart(pat, pat);
    } else {
      DeleteAllKeepsOtherChars(s[1..], pat);
      var rest := DeleteAll(s[1..], pat);
      assert ([s[0]] + rest)[1..] == rest;
    }
  }

  /** A string with no character of some pattern character is left alone. */
  lemma {:induction false} DeleteAllWithoutPatternChar(s: string, pat: string, c: char)
    requires pat != [] && c in pat && c !in s
    ensures DeleteAll(s, pat) == s
    decreases |s|
  {
    if s != [] {
      var k :| 0 <= k < |pat| && pat[k] == c;
      if k < |s| {
        assert s[k] != pat[k];
      }
      assert !(pat <= s);
      DeleteAllWithoutPatternChar(s[1..], pat, c);
      assert s == [s[0]] + s[1..];
    }
  }

  /** No match starts at any position of `a` (it may still start in `b`
      or straddle the two only if it starts in `b`), so the scan copies `a`
      through and continues on `b`. */
  lemma {:induction false} DeleteAllSkipsUnmatched(a: string, b: string, pat: string)
    requires pat != []
    requires forall i :: 0 <= i < |a| ==> !(pat <= (a + b)[i..])
    ensures DeleteAll(a + b, pat) == a + DeleteAll(b, pat)
    decreases |a|
  {
    if a == [] {
      assert a + b == b;
    } else {
      var ab := a + b;
      assert ab[0..] == ab;
      assert ab[0] == a[0] && ab[1..] == a[1..] + b;
      forall i | 0 <= i < |a[1..]|
        ensures !(pat <= (a[1..] + b)[i..])
      {
        assert (a[1..] + b)[i..] == ab[i + 1..];
      }
      DeleteAllSkipsUnmatched(a[1..], b, pat);
      assert a == [a[0]] + a[1..];
    }
  }

  /** In particular no match starts inside a prefix that lacks the
      pattern's first character. */
  lemma DeleteAllSkipsPrefix(a: string, b: string, pat: string)
    requires pat != [] && pat[0] !in a
    ensures DeleteAll(a + b, pat) == a + DeleteAll(b, pat)
  {
    forall i | 0 <= i < |a|
      ensures !(pat <= (a + b)[i..])
    {
      assert (a + b)[i..][0] == a[i];
    }
    DeleteAllSkipsUnmatched(a, b, pat);
  }

  /** Every occurrence is deleted wherever it sits: when the first match in
      the string starts after `a`, that match disappears and the scan
      resumes right behind it. Applied repeatedly, this accounts for every
      occurrence the left-to-right scan meets. */
  lemma DeleteAllOneMatch(a: string, b: string, pat: string)
    requires pat != []
    requires forall i :: 0 <= i < |a| ==> !(pat <= (a + (pat + b))[i..])
    ensures DeleteAll(a + (pat + b), pat) == a + DeleteAll(b, pat)
  {
    DeleteAllSkipsUnmatched(a, pat + b, pat);
    assert (pat + b)[|pat|..] == b;
  }

  /** The only match, between a prefix without the pattern's first character
      and a suffix missing one of its characters, is the one deleted. */
  lemma DeleteAllLoneMatch(a: string, b: string, pat: string, c: char)
    requires pat != [] && pat[0] !in a
    requires c in pat && c !in b
    ensures DeleteAll(a + (pat + b), pat) == a + b
  {
    DeleteAllSkipsPrefix(a, pat + b, pat);
    assert (pat + b)[|pat|..] == b;
    DeleteAllWithoutPatternChar(b, pat, c);
  }

  /** Like `re.sub`, deletion is a single pass: removing a match can bring
      a new one together, and that one stays. */
  lemma DeleteAllIsOnePass()
    ensures DeleteAll("..comcom", DomainPattern) == DomainPattern
  {
    var s := "..comcom";
    assert !(DomainPattern <= s) by {
      assert s[1] != DomainPattern[1];
    }
    assert s[1..] == ".comcom";
    assert DomainPattern <= ".comcom" && ".comcom"[4..] == "com";
    DeleteAllWithoutPatternChar("com", DomainPattern, '.');
    assert DeleteAll(s, DomainPattern) == [s[0]] + "com";
  }

  /** The suffix of `s` that starts at its first letter or digit. */
  function SkipRun(s: string): (r: string)
    ensures |r| <= |s|
    ensures s != [] && !IsAsciiAlnum(s[0]) ==> |r| < |s|
    ensures r == [] || IsAsciiAlnum(r[0])
  {
    if s == [] || IsAsciiAlnum(s[0]) then s else SkipRun(s[1..])
  }

  /** `SkipRun` drops only characters other than letters and digits. */
  lemma {:induction false} SkipRunKeepsAlnum(s: string)
    ensures AlnumOf(SkipRun(s)) == AlnumOf(s)
    decreases |s|
  {
    if s != [] && !IsAsciiAlnum(s[0]) {
      SkipRunKeepsAlnum(s[1..]);
    }
  }

  /** How one leading character combines with the shape of the rest. */
  lemma ConsShape(c: char, r: string)
    ensures AlnumOf([c] + r) == AlnumPart(c) + AlnumOf(r)
    ensures IsNameChar(c) && NameCharsOnly(r) ==> NameCharsOnly([c] + r)
    ensures NoDoubleUnderscore(r) && (c == '_' ==> r == [] || r[0] != '_') ==> NoDoubleUnderscore([c] + r)
  {
    assert ([c] + r)[1..] == r;
  }

  /** One `re.sub(r"[^a-zA-Z0-9]+", "_", s)`: each maximal run of other
      characters, `_` included, becomes a single `_`. */
  function Collapse(s: string): (r: string)
    decreases |s|
  {
    if s == [] then []
    else if IsAsciiAlnum(s[0]) then [s[0]] + Collapse(s[1..])
    else "_" + Collapse(SkipRun(s))
  }

  /** `Collapse` leaves only name characters, never two `_` in a row, and
      keeps every letter and digit in order. */
  lemma {:induction false} CollapseShape(s: string)
    ensures NameCharsOnly(Collapse(s))
    ensures NoDoubleUnderscore(Collapse(s))
    ensures AlnumOf(Collapse(s)) == AlnumOf(s)
    decreases |s|
  {
    if s == [] {
    } else if IsAsciiAlnum(s[0]) {
      CollapseShape(s[1..]);
      ConsShape(s[0], Collapse(s[1..]));
      assert AlnumOf(s) == AlnumPart(s[0]) + AlnumOf(s[1..]);
    } else {
      CollapseShape(SkipRun(s));
      SkipRunKeepsAlnum(s);
      ConsShape('_', Collapse(SkipRun(s)));
    }
  }

  lemma CollapseAlnumCons(c: char, b: string)
    requires IsAsciiAlnum(c)
    ensures Collapse([c] + b) == [c] + Collapse(b)
  {
    assert ([c] + b)[1..] == b;
  }

  /** A prefix of letters and digits is copied through `Collapse`. */
  lemma {:induction false} CollapseAlnumPrefix(a: string, b: string)
    requires forall i :: 0 <= i < |a| ==> IsAsciiAlnum(a[i])
    ensures Collapse(a + b) == a + Collapse(b)
    decreases |a|
  {
    if a == [] {
      assert a + b == b;
    } else {
      var c, tail := a[0], a[1..];
      assert a == [c] + tail;
      ConsAssoc(c, tail, b);
      CollapseAlnumCons(c, tail + b);
      CollapseAlnumPrefix(tail, b);
      ConsAssoc(c, tail, Collapse(b));
    }
  }

  lemma ConsAssoc(c: char, x: string, y: string)
    ensures [c] + (x + y) == ([c] + x) + y
  {
  }

  /** A whole run of other characters is skipped in one step. */
  lemma {:induction false} SkipRunOfRun(a: string, b: string)
    requires forall i :: 0 <= i < |a| ==> !IsAsciiAlnum(a[i])
    requires b == [] || IsAsciiAlnum(b[0])
    ensures SkipRun(a + b) == b
    decreases |a|
  {
    if a == [] {
      assert a + b == b;
    } else {
      var ab := a + b;
      assert ab[0] == a[0] && ab[1..] == a[1..] + b;
      SkipRunOfRun(a[1..], b);
    }
  }

  /** A run of other characters followed by a letter, a digit or the end
      becomes exactly one `_`. */
  lemma CollapseRunPrefix(a: string, b: string)
    requires a != []
    requires forall i :: 0 <= i < |a| ==> !IsAsciiAlnum(a[i])
    requires b == [] || IsAsciiAlnum(b[0])
    ensures Collapse(a + b) == "_" + Collapse(b)
  {
    SkipRunOfRun(a, b);
    assert (a + b)[0] == a[0];
  }

  /** `s` without its leading `_` characters. */
  function DropLeading(s: string): (r: string)
    ensures |r| <= |s| && r == s[|s| - |r|..]
    ensures forall i :: 0 <= i < |s| - |r| ==> s[i] == '_'
    ensures r == [] || r[0] != '_'
    ensures s != [] && s[0] != '_' ==> r == s
  {
    if s != [] && s[0] == '_' then
      var r := DropLeading(s[1..]);
      assert forall i :: 1 <= i < |s| - |r| ==> s[i] == s[1..][i - 1];
      r
    else s
  }

  lemma {:induction false} DropLeadingKeepsAlnum(s: string)
    ensures AlnumOf(DropLeading(s)) == AlnumOf(s)
    decreases |s|
  {
    if s != [] && s[0] == '_' {
      DropLeadingKeepsAlnum(s[1..]);
    }
  }

  /** `s` without its trailing `_` characters. */
  function DropTrailing(s: string): (r: string)
    ensures |r| <= |s| && r == s[..|r|]
    ensures forall i :: |r| <= i < |s| ==> s[i] == '_'
    ensures r == [] || r[|r| - 1] != '_'
    ensures s != [] && s[|s| - 1] != '_' ==> r == s
  {
    if s != [] && s[|s| - 1] == '_' then DropTrailing(s[..|s| - 1]) else s
  }

  lemma {:induction false} DropTrailingKeepsAlnum(s: string)
    ensures AlnumOf(DropTrailing(s)) == AlnumOf(s)
    decreases |s|
  {
    if s != [] && s[|s| - 1] == '_' {
      var init := s[..|s| - 1];
      assert s == init + "_";
      AlnumOfAppend(init, "_");
      DropTrailingKeepsAlnum(init);
    }
  }

  lemma SliceKeepsNameShape(s: string, lo: nat, hi: nat)
    requires lo <= hi <= |s|
    ensures NameCharsOnly(s) ==> NameCharsOnly(s[lo..hi])
    ensures NoDoubleUnderscore(s) ==> NoDoubleUnderscore(s[lo..hi])
  {
  }

  /** `str.strip("_")`: removes every `_` at either end and nothing else. */
  function StripUnderscores(s: string): (r: string)
    ensures NoEdgeUnderscore(r)
    ensures NoEdgeUnderscore(s) ==> r == s
  {
    DropTrailing(DropLeading(s))
  }

  /** Stripping keeps the middle of its input: what it cuts off at either
      end is nothing but `_`. */
  lemma StripUnderscoresKeepsMiddle(s: string)
    ensures var lo, r := |s| - |DropLeading(s)|, StripUnderscores(s);
            lo + |r| <= |s| && r == s[lo..lo + |r|]
            && (forall i :: 0 <= i < lo ==> s[i] == '_')
            && (forall i :: lo + |r| <= i < |s| ==> s[i] == '_')
  {
    var t := DropLeading(s);
    var lo := |s| - |t|;
    EndsOfMiddle(s, lo, t, DropTrailing(t));
  }

  lemma EndsOfMiddle(s: string, lo: nat, t: string, r: string)
    requires lo <= |s| && t == s[lo..] && |r| <= |t| && r == t[..|r|]
    requires forall i :: |r| <= i < |t| ==> t[i] == '_'
    ensures lo + |r| <= |s| && r == s[lo..lo + |r|]
    ensures forall i :: lo + |r| <= i < |s| ==> s[i] == '_'
  {
    forall i | lo + |r| <= i < |s|
      ensures s[i] == '_'
    {
      assert s[i] == t[i - lo];
    }
  }

  /** Stripping keeps a contiguous piece of its input, so it keeps the
      input's character set and its lack of `__`, and drops no letter or digit. */
  lemma StripShape(s: string)
    ensures NameCharsOnly(s) ==> NameCharsOnly(StripUnderscores(s))
    ensures NoDoubleUnderscore(s) ==> NoDoubleUnderscore(StripUnderscores(s))
    ensures AlnumOf(StripUnderscores(s)) == AlnumOf(s)
  {
    StripIsSlice(s);
    DropLeadingKeepsAlnum(s);
    DropTrailingKeepsAlnum(DropLeading(s));
  }

  lemma StripIsSlice(s: string)
    ensures NameCharsOnly(s) ==> NameCharsOnly(StripUnderscores(s))
    ensures NoDoubleUnderscore(s) ==> NoDoubleUnderscore(StripUnderscores(s))
  {
    StripUnderscoresKeepsMiddle(s);
    var lo, r := |s| - |DropLeading(s)|, StripUnderscores(s);
    SliceKeepsNameShape(s, lo, lo + |r|);
  }


  /** The text left once both literal deletions have run. */
  function Deleted(url: string): string {
    DeleteAll(DeleteAll(url, SchemePattern), DomainPattern)
  }

  /** `_sanitize_filename`. The result is a safe name, and its letters and
      digits are exactly those that survive the two deletions, in order. */
  function SanitizeFilename(url: string): (name: string)
    ensures IsSafeName(name)
    ensures AlnumOf(name) == AlnumOf(Deleted(url))
  {
    var collapsed := Collapse(Deleted(url));
    CollapseShape(Deleted(url));
    StripShape(collapsed);
    StripUnderscores(collapsed)
  }

  /** A safe name passes through `Collapse` unchanged. */
  lemma {:induction false} CollapseOfSafeName(s: string)
    requires NameCharsOnly(s) && NoDoubleUnderscore(s)
    requires |s| > 0 ==> s[|s| - 1] != '_'
    ensures Collapse(s) == s
    decreases |s|
  {
    if s != [] {
      SliceKeepsNameShape(s, 1, |s|);
      CollapseOfSafeName(s[1..]);
      if !IsAsciiAlnum(s[0]) {
        assert s[0] == '_' && |s| > 1;
        assert s[1] != '_';
        assert SkipRun(s[1..]) == s[1..];
        assert SkipRun(s) == s[1..];
      }
      assert s == [s[0]] + s[1..];
    }
  }

  lemma NameLacksPatternChars(s: string)
    requires NameCharsOnly(s)
    ensures ':' !in s && '.' !in s
  {
    assert !IsNameChar(':') && !IsNameChar('.');
  }

  /** Sanitising a sanitised name changes nothing. */
  lemma SanitizeIdempotent(url: string)
    ensures SanitizeFilename(SanitizeFilename(url)) == SanitizeFilename(url)
  {
    var name := SanitizeFilename(url);
    NameLacksPatternChars(name);
    DeleteAllWithoutPatternChar(name, SchemePattern, ':');
    DeleteAllWithoutPatternChar(name, DomainPattern, '.');
    CollapseOfSafeName(name);
  }

  // The worked example is proved in small steps on slices of the input, so
  // that no recursive function is ever applied to a literal.

  lemma SchemeDeletedInExample(url: string)
    requires url == "https://example.com/foo?bar=1"
    ensures DeleteAll(url, SchemePattern) == url[8..]
  {
    assert SchemePattern <= url;
    DeleteAllWithoutPatternChar(url[8..], SchemePattern, ':');
  }

  lemma DomainDeletedInExample(url: string)
    requires url == "https://example.com/foo?bar=1"
    ensures DeleteAll(url[8..], DomainPattern) == url[8..15] + url[19..]
  {
    var word, path := url[8..15], url[19..];
    assert url[15..19] == DomainPattern;
    SliceAround(url, 8, 15, 19);
    DeleteAllLoneMatch(word, path, DomainPattern, '.');
  }

  lemma SliceAround(s: string, i: nat, j: nat, k: nat)
    requires i <= j <= k <= |s|
    ensures s[i..] == s[i..j] + (s[j..k] + s[k..])
  {
    assert s[i..] == s[i..j] + s[j..];
    assert s[j..] == s[j..k] + s[k..];
  }

  lemma JoinedExample(url: string)
    requires url == "https://example.com/foo?bar=1"
    ensures url[8..15] + url[19..] == "example/foo?bar=1"
  {
    assert url[8..15] == "example";
    assert url[19..] == "/foo?bar=1";
  }

  lemma DeletedExample(url: string)
    requires url == "https://example.com/foo?bar=1"
    ensures Deleted(url) == "example/foo?bar=1"
  {
    SchemeDeletedInExample(url);
    DomainDeletedInExample(url);
    JoinedExample(url);
  }

  lemma SplitAround(s: string, k: nat)
    requires k < |s|
    ensures s == s[..k] + (s[k..k + 1] + s[k + 1..])
  {
  }

  /** A word, one separator and the rest: the separator becomes `_`. */
  lemma CollapseWordSep(s: string, k: nat)
    requires k + 1 < |s|
    requires forall i :: 0 <= i < k ==> IsAsciiAlnum(s[i])
    requires !IsAsciiAlnum(s[k]) && IsAsciiAlnum(s[k + 1])
    ensures Collapse(s) == s[..k] + ("_" + Collapse(s[k + 1..]))
  {
    var w, sep, rest := s[..k], s[k..k + 1], s[k + 1..];
    SplitAround(s, k);
    CollapseAlnumPrefix(w, sep + rest);
    CollapseRunPrefix(sep, rest);
  }

  lemma CollapseExampleTail(s: string)
    requires s == "example/foo?bar=1"
    ensures Collapse(s[12..]) == "bar_1"
  {
    var t := s[12..];
    CollapseWordSep(t, 3);
    var last := t[4..];
    assert last == last + [];
    CollapseAlnumPrefix(last, []);
    assert t[..3] + ("_" + last) == "bar_1";
  }

  lemma CollapseExampleMiddle(s: string)
    requires s == "example/foo?bar=1"
    ensures Collapse(s[8..]) == "foo_bar_1"
  {
    var t := s[8..];
    CollapseWordSep(t, 3);
    assert t[4..] == s[12..];
    CollapseExampleTail(s);
    assert t[..3] + ("_" + "bar_1") == "foo_bar_1";
  }

  lemma CollapseExample(s: string)
    requires s == "example/foo?bar=1"
    ensures Collapse(s) == "example_foo_bar_1"
  {
    ExampleFirstWord(s);
    CollapseWordSep(s, 7);
    CollapseExampleMiddle(s);
    ExampleJoin(s);
  }

  lemma ExampleFirstWord(s: string)
    requires s == "example/foo?bar=1"
    ensures forall i :: 0 <= i < 7 ==> IsAsciiAlnum(s[i])
    ensures !IsAsciiAlnum(s[7]) && IsAsciiAlnum(s[8])
  {
  }

  lemma ExampleJoin(s: string)
    requires s == "example/foo?bar=1"
    ensures s[..7] + ("_" + "foo_bar_1") == "example_foo_bar_1"
  {
  }

  /** The worked example: scheme and `.com` are deleted, the rest collapses
      to single underscores. (A prose example next to the source function
      gives `https___example_com_foo_bar_1.jsonl`; the code does not produce that.) */
  lemma SanitizeExample(url: string)
    requires url == "https://example.com/foo?bar=1"
    ensures SanitizeFilename(url) == "example_foo_bar_1"
    ensures SanitizeFilename(url) != "https___example_com_foo_bar_1"
  {
    DeletedExample(url);
    CollapseExample(Deleted(url));
  }
}

=== FILE: scraper.dfy ===
/** The job-board scraper's control flow: log in only when no saved session
    exists, then page through the listing. Each pass captures the page's URL,
    extracts a batch of job posts, pushes the whole batch to the table one
    row per post, clicks "next", and stops as soon as the click leaves the
    URL unchanged.

    The browser and the table are oracles: the site is the sequence of pages
    the loop meets, each one described by the URL before the click, the batch
    the extractor returns there, the URL after the click, and the fault, if
    any, that raises on that page and ends the run with an exception. */
module Scraper {
  import opened Models

  datatype ContractType = Contract | FullTime
  datatype LocationType = Remote | OnSite | Hybrid

  /** One record of the extractor's `job_posts[]` list. */
  datatype JobPost = JobPost(
    orgName: string,
    jobTitle: string,
    salary: string,
    location: string,
    contractType: ContractType,
    locationType: LocationType,
    datePosted: string,
    url: string)

  /** What can raise on a page: the table's `create` of the row with this
      index, or the click on a "next" control the pagination query did not
      find (`None.click()`). */
  datatype Fault = NoFault | CreateRaises(row: nat) | NoNextControl

  /** What one pass of the loop sees. `after` only matters when the click
      happens. */
  datatype Page = Page(before: string, batch: seq<JobPost>, after: string, fault: Fault := NoFault)

  /** The row index whose `create` raises, as the push sees it. */
  function CreateFault(f: Fault): Option<nat> {
    if f.CreateRaises? then Some(f.row) else None
  }

  /** Some `create` of the batch raises (a fault past the batch's end is never reached). */
  predicate PushRaises(p: Page) {
    p.fault.CreateRaises? && p.fault.row < |p.batch|
  }

  /** The pass on `p` ends with an exception. */
  predicate Raises(p: Page) {
    PushRaises(p) || p.fault.NoNextControl?
  }

  /** The click did not move the browser. */
  predicate Stalled(p: Page) {
    p.before == p.after
  }

  /** The loop ends on `p`: by an exception, or because the click stalled. */
  predicate Ends(p: Page) {
    Raises(p) || Stalled(p)
  }

  predicate HasEnd(site: seq<Page>) {
    exists k :: 0 <= k < |site| && Ends(site[k])
  }

  /** Each page is entered at the URL where the previous click landed. */
  predicate Chained(site: seq<Page>) {
    forall j :: 0 <= j < |site| - 1 ==> site[j].after == site[j + 1].before
  }

  /** The observable steps of a run, in order. */
  datatype Event =
    | LogIn
    | Capture(url: string)
    | Extract(batch: seq<JobPost>)
    | Push(rows: nat)
    | CreateFailed(row: nat)
    | ClickNext(landed: string)
    | ClickFailed

  /** A run: its trace, the rows it created, how many passes it began, and
      whether it ended with an exception. */
  datatype Run = Run(trace: seq<Event>, table: seq<JobPost>, iterations: nat, raised: bool)

  /** The index of the first page on which the loop ends. */
  function FirstEnd(site: seq<Page>, from: nat := 0): (k: nat)
    requires from <= |site|
    requires exists k :: from <= k < |site| && Ends(site[k])
    ensures from <= k < |site| && Ends(site[k])
    ensures forall j :: from <= j < k ==> !Ends(site[j])
    decreases |site| - from
  {
    if Ends(site[from]) then from else FirstEnd(site, from + 1)
  }

  /** One completed pass: capture, extract, push the whole batch, click. */
  function PassTrace(p: Page): (t: seq<Event>)
    ensures |t| == 4
  {
    [Capture(p.before), Extract(p.batch), Push(|p.batch|), ClickNext(p.after)]
  }

  /** The events of the last pass: a raising `create` cuts it after the
      extraction, a missing "next" control after the push. */
  function FinalTrace(p: Page): (t: seq<Event>)
    ensures t != []
    ensures t == PassTrace(p) <==> !Raises(p)
    ensures Raises(p) ==>
              t[..|t| - 1] < PassTrace(p) && (t[|t| - 1] == ClickFailed || t[|t| - 1].CreateFailed?)
    ensures Push(|p.batch|) in t <==> !PushRaises(p)
  {
    var start := [Capture(p.before), Extract(p.batch)];
    if PushRaises(p) then start + [CreateFailed(p.fault.row)]
    else if p.fault.NoNextControl? then start + [Push(|p.batch|), ClickFailed]
    else PassTrace(p)
  }

  /** The rows the push on `p` creates before it returns or raises. */
  function Created(p: Page): (rows: seq<JobPost>)
    ensures rows <= p.batch
    ensures |rows| < |p.batch| <==> PushRaises(p)
  {
    if PushRaises(p) then p.batch[..p.fault.row] else p.batch
  }

  /** The events of the first `n` passes over `site`, one after the other. */
  function Trace(site: seq<Page>, n: nat): (t: seq<Event>)
    requires n <= |site|
    ensures |t| == 4 * n
  {
    if n == 0 then [] else Trace(site, n - 1) + PassTrace(site[n - 1])
  }

  /** The rows the first `n` passes over `site` create, in push order. */
  function Rows(site: seq<Page>, n: nat): seq<JobPost>
    requires n <= |site|
  {
    if n == 0 then [] else Rows(site, n - 1) + site[n - 1].batch
  }

  /** The sum of the batch sizes of `pages`. */
  function BatchTotal(pages: seq<Page>): nat {
    if pages == [] then 0 else |pages[0].batch| + BatchTotal(pages[1..])
  }

  /** `push_data_to_airtable`: one `create` per post, in batch order, then
      the printed count, which is the batch's length. When the `create` of
      row `raisesAt` raises, the rows before it stay created and no count is
      printed. */
  method PushBatch(table: seq<JobPost>, batch: seq<JobPost>, raisesAt: Option<nat>)
    returns (updated: seq<JobPost>, count: Option<nat>)
    ensures raisesAt.Some? && raisesAt.value < |batch| ==>
              count == None && updated == table + batch[..raisesAt.value]
    ensures !(raisesAt.Some? && raisesAt.value < |batch|) ==>
              count == Some(|batch|) && updated == table + batch
  {
    updated := table;
    var i := 0;
    while i < |batch|
      invariant 0 <= i <= |batch|
      invariant updated == table + batch[..i]
      invariant raisesAt.Some? ==> i <= raisesAt.value
    {
      if raisesAt == Some(i) {
        return updated, None;
      }
      updated := updated + [batch[i]];
      i := i + 1;
    }
    assert batch[..i] == batch;
    count := Some(|batch|);
  }

  /** `main`: log in when no session is saved, then page until a click stalls
      or a pass raises. Without such a page the loop never ends, so the site
      must have one. */
  method ScrapeAndSync(sessionSaved: bool, site: seq<Page>) returns (run: Run)
    requires HasEnd(site)
    ensures 1 <= run.iterations <= |site|
    ensures Ends(site[run.iterations - 1])
    ensures forall j :: 0 <= j < run.iterations - 1 ==>
              !Raises(site[j]) && site[j].before != site[j].after
    ensures run.raised <==> Raises(site[run.iterations - 1])
    ensures run.trace == (if sessionSaved then [] else [LogIn])
                         + Trace(site, run.iterations - 1) + FinalTrace(site[run.iterations - 1])
    ensures run.table == Rows(site, run.iterations - 1) + Created(site[run.iterations - 1])
    ensures !run.raised ==> run.trace == (if sessionSaved then [] else [LogIn]) + Trace(site, run.iterations)
    ensures !run.raised ==> run.table == Rows(site, run.iterations)
    ensures |run.table| == BatchTotal(site[..run.iterations - 1]) + |Created(site[run.iterations - 1])|
  {
    var trace: seq<Event> := if sessionSaved then [] else [LogIn];
    var login := trace;
    var table: seq<JobPost> := [];
    ghost var last := FirstEnd(site);
    var status, raised := true, false;
    var k := 0;
    while status
      invariant 0 <= k <= last + 1
      invariant status <==> k <= last
      invariant !status ==> !Raises(site[last])
      invariant trace == login + Trace(site, k)
      invariant table == Rows(site, k)
      decreases last + 1 - k
    {
      var page := site[k];
      var events, updated;
      events, updated, raised := VisitPage(table, page);
      if raised {
        trace, table, k := trace + events, updated, k + 1;
        break;
      }
      AppendAssoc(login, Trace(site, k), events);
      trace, table := trace + events, updated;
      if page.before == page.after {
        status := false;
      }
      k := k + 1;
    }
    run := Run(trace, table, k, raised);
    if !raised {
      AppendAssoc(login, Trace(site, k - 1), PassTrace(site[k - 1]));
    }
    LoopExit(sessionSaved, site, run);
  }

  /** What the loop of `main` leaves behind, whichever way it exits, gives
      every postcondition of `ScrapeAndSync`. */
  lemma LoopExit(sessionSaved: bool, site: seq<Page>, run: Run)
    requires HasEnd(site) && 1 <= run.iterations <= FirstEnd(site) + 1
    requires run.raised ==> Raises(site[run.iterations - 1])
    requires !run.raised ==> run.iterations == FirstEnd(site) + 1 && !Raises(site[run.iterations - 1])
    requires run.trace == (if sessionSaved then [] else [LogIn])
                          + Trace(site, run.iterations - 1) + FinalTrace(site[run.iterations - 1])
    requires run.table == Rows(site, run.iterations - 1) + Created(site[run.iterations - 1])
    ensures 1 <= run.iterations <= |site|
    ensures Ends(site[run.iterations - 1])
    ensures forall j :: 0 <= j < run.iterations - 1 ==>
              !Raises(site[j]) && site[j].before != site[j].after
    ensures run.raised <==> Raises(site[run.iterations - 1])
    ensures !run.raised ==> run.trace == (if sessionSaved then [] else [LogIn]) + Trace(site, run.iterations)
    ensures !run.raised ==> run.table == Rows(site, run.iterations)
    ensures |run.table| == BatchTotal(site[..run.iterations - 1]) + |Created(site[run.iterations - 1])|
  {
    var n := run.iterations - 1;
    RowsCountBatches(site, n);
    if !run.raised {
      AppendAssoc(if sessionSaved then [] else [LogIn], Trace(site, n), PassTrace(site[n]));
    }
  }

  /** One pass of the loop body on `page`: capture the URL, extract, push,
      click, each step observed in order, until one of them raises. */
  method VisitPage(table: seq<JobPost>, page: Page)
    returns (events: seq<Event>, updated: seq<JobPost>, raised: bool)
    ensures raised <==> Raises(page)
    ensures events == FinalTrace(page)
    ensures updated == table + Created(page)
  {
    var current := page.before;
    var batch := page.batch;
    var count;
    updated, count := PushBatch(table, batch, CreateFault(page.fault));
    if count == None {
      return [Capture(current), Extract(batch), CreateFailed(page.fault.row)], updated, true;
    }
    if page.fault.NoNextControl? {
      return [Capture(current), Extract(batch), Push(count.value), ClickFailed], updated, true;
    }
    var landed := page.after;
    events := [Capture(current), Extract(batch), Push(count.value), ClickNext(landed)];
    raised := false;
  }

  lemma AppendAssoc<T>(a: seq<T>, b: seq<T>, c: seq<T>)
    ensures a + (b + c) == (a + b) + c
  {
  }

  /** Two sites whose pages carry the same URLs, faults and batch sizes stop
      after the same number of passes: what the posts say never influences
      when the loop ends. */
  lemma {:induction false} StopDependsOnlyOnUrls(a: seq<Page>, b: seq<Page>, from: nat)
    requires |a| == |b| && from <= |a|
    requires forall i :: 0 <= i < |a| ==>
               a[i].before == b[i].before && a[i].after == b[i].after
               && a[i].fault == b[i].fault && |a[i].batch| == |b[i].batch|
    requires exists k :: from <= k < |a| && Ends(a[k])
    ensures exists k :: from <= k < |b| && Ends(b[k])
    ensures FirstEnd(a, from) == FirstEnd(b, from)
    decreases |a| - from
  {
    var k := FirstEnd(a, from);
    assert Ends(b[k]);
    if !Ends(a[from]) {
      assert !Ends(b[from]);
      StopDependsOnlyOnUrls(a, b, from + 1);
    }
  }

  /** A URL of length `n`: distinct lengths make distinct URLs. */
  function Path(n: nat): (u: string)
    ensures |u| == n
  {
    seq(n, _ => '/')
  }

  /** The page `j` of a site whose first `n` clicks each move one step on. */
  function Step(n: nat, j: nat): Page {
    if j < n then Page(Path(j), [], Path(j + 1)) else Page(Path(n), [], Path(n))
  }

  /** There is no cap on the number of passes: for every `n` some site a
      browser could produce, with every page entered where the previous click
      landed and nothing raising, ends the loop on its page `n` and no earlier. */
  lemma NoIterationCap(n: nat)
    ensures exists site: seq<Page> :: |site| == n + 1 && Chained(site)
              && (forall j :: 0 <= j < |site| ==> !Raises(site[j]))
              && Ends(site[n]) && (forall j :: 0 <= j < n ==> !Ends(site[j]))
  {
    var site := seq(n + 1, j requires 0 <= j => Step(n, j));
    assert Ends(site[n]);
    forall j | 0 <= j < n
      ensures !Ends(site[j])
    {
      assert |site[j].before| != |site[j].after|;
    }
  }

  /** The first `n` passes create as many rows as their batches hold. */
  lemma {:induction false} RowsCountBatches(site: seq<Page>, n: nat)
    requires n <= |site|
    ensures |Rows(site, n)| == BatchTotal(site[..n])
  {
    if n > 0 {
      RowsCountBatches(site, n - 1);
      BatchTotalAppend(site[..n - 1], site[n - 1]);
      assert site[..n - 1] + [site[n - 1]] == site[..n];
    }
  }

  lemma {:induction false} BatchTotalAppend(pages: seq<Page>, p: Page)
    ensures BatchTotal(pages + [p]) == BatchTotal(pages) + |p.batch|
    decreases |pages|
  {
    if pages == [] {
      assert [p][1..] == [];
    } else {
      assert (pages + [p])[1..] == pages[1..] + [p];
      BatchTotalAppend(pages[1..], p);
    }
  }

  /** The number of pushes in a trace. */
  function PushCount(t: seq<Event>): nat {
    if t == [] then 0 else (if t[0].Push? then 1 else 0) + PushCount(t[1..])
  }

  lemma {:induction false} PushCountAppend(a: seq<Event>, b: seq<Event>)
    ensures PushCount(a + b) == PushCount(a) + PushCount(b)
    decreases |a|
  {
    if a == [] {
      assert a + b == b;
    } else {
      assert (a + b)[1..] == a[1..] + b;
      PushCountAppend(a[1..], b);
    }
  }

  /** Each pass pushes exactly once, whatever its batch, empty ones included. */
  lemma {:induction false} OnePushPerPass(site: seq<Page>, n: nat)
    requires n <= |site|
    ensures PushCount(Trace(site, n)) == n
  {
    if n > 0 {
      OnePushPerPass(site, n - 1);
      PushCountAppend(Trace(site, n - 1), PassTrace(site[n - 1]));
      PassPushesOnce(site[n - 1]);
    }
  }

  lemma PassPushesOnce(p: Page)
    ensures PushCount(PassTrace(p)) == 1
  {
    var click := [ClickNext(p.after)];
    var push := [Push(|p.batch|)] + click;
    var extract := [Extract(p.batch)] + push;
    PushCountCons(ClickNext(p.after), []);
    PushCountCons(Push(|p.batch|), click);
    PushCountCons(Extract(p.batch), push);
    PushCountCons(Capture(p.before), extract);
    assert PassTrace(p) == [Capture(p.before)] + extract;
  }

  lemma PushCountCons(e: Event, rest: seq<Event>)
    ensures PushCount([e] + rest) == (if e.Push? then 1 else 0) + PushCount(rest)
  {
    assert ([e] + rest)[1..] == rest;
  }

  /** The trace of the passes never contains a log-in. */
  lemma {:induction false} PassesDoNotLogIn(site: seq<Page>, n: nat)
    requires n <= |site|
    ensures LogIn !in Trace(site, n)
  {
    if n > 0 {
      PassesDoNotLogIn(site, n - 1);
    }
  }

  /** A run logs in if and only if no session was saved beforehand, and
      then before anything else, whether it stalls or raises. */
  lemma LogInIffNoSession(sessionSaved: bool, site: seq<Page>, run: Run)
    requires 1 <= run.iterations <= |site|
    requires run.trace == (if sessionSaved then [] else [LogIn])
                          + Trace(site, run.iterations - 1) + FinalTrace(site[run.iterations - 1])
    ensures LogIn in run.trace <==> !sessionSaved
    ensures !sessionSaved ==> run.trace[0] == LogIn
  {
    var n := run.iterations;
    PassesDoNotLogIn(site, n - 1);
    FinalDoesNotLogIn(site[n - 1]);
    LeadingLogIn(sessionSaved, Trace(site, n - 1), FinalTrace(site[n - 1]), run.trace);
  }

  /** When neither the passes nor the last pass log in, the login prefix is
      the only place `LogIn` can occur. */
  lemma LeadingLogIn(sessionSaved: bool, passes: seq<Event>, final: seq<Event>, trace: seq<Event>)
    requires trace == (if sessionSaved then [] else [LogIn]) + passes + final
    requires LogIn !in passes && LogIn !in final
    ensures LogIn in trace <==> !sessionSaved
    ensures !sessionSaved ==> trace[0] == LogIn
  {
    assert LogIn !in passes + final;
    AppendAssoc(if sessionSaved then [] else [LogIn], passes, final);
  }

  lemma FinalDoesNotLogIn(p: Page)
    ensures LogIn !in FinalTrace(p)
  {
  }

  /** Within a pass the URL is captured first, the batch is extracted and
      pushed, and only then is "next" clicked. */
  lemma {:induction false} PassOrder(site: seq<Page>, n: nat, i: nat)
    requires i < n <= |site|
    ensures var t := Trace(site, n)[4 * i..4 * i + 4];
            t[0] == Capture(site[i].before) && t[1] == Extract(site[i].batch)
            && t[2] == Push(|site[i].batch|) && t[3] == ClickNext(site[i].after)
  {
    PassAt(site, n, i);
  }

  lemma {:induction false} PassAt(site: seq<Page>, n: nat, i: nat)
    requires i < n <= |site|
    ensures Trace(site, n)[4 * i..4 * i + 4] == PassTrace(site[i])
  {
    if i < n - 1 {
      PassAt(site, n - 1, i);
      assert Trace(site, n)[4 * i..4 * i + 4] == Trace(site, n - 1)[4 * i..4 * i + 4];
    } else {
      assert Trace(site, n)[4 * i..4 * i + 4] == PassTrace(site[i]);
    }
  }
}
